=== FILE: README.md ===
# Site interactivity controllers, modelled in Dafny

`script.js` adds interactivity to a static site. Behind its event handlers sit a few
small state machines. This project restates each one as an immutable record with pure
transition functions, and proves their invariants:

- **Nav** (`nav.dfy`): the `active` markers of the menu and its toggle button. The toggle
  flips both markers. A click on any nav link clears both.
- **Lightbox** (`lightbox.dfy`): an overlay over a fixed list of images `(src, alt)`.
  - It holds the current index, the overlay's inline `display` and the body's inline
    `overflow`, plus the rendered `src`, `alt` and caption.
  - Open, close, next/prev with wrap-around, a guarded render and keyboard dispatch are all
    modelled.
  - If the image element is missing, the render throws and ends the handler.
- **Slider** (`slider.dfy`) with **Autoplay** (`autoplay.dfy`): the hero slider.
  - It holds the slide and dot markers, the current index, and the dots' jump targets.
  - The timer is abstract: the recorded `autoplayId`, the set of live intervals, and the id
    the host hands out next.
  - An interval firing is a `Tick(id)` event. It advances the slider only while that
    interval is live.
- **Tabs** (`tabs.dfy`): `showTab(name)`. The clicked control is passed as an explicit
  parameter instead of being read from the ambient `event` global.
- **Page** (`page.dfy`): the document-ready handler that starts the slider and then the
  lightbox.
- **JsValues** and **Markers** (`js_values.dfy`, `markers.dfy`): shared JavaScript value
  semantics and active-marker groups.
  - JavaScript's truncating `%`.
  - Indices that can become NaN: `x % 0` is NaN.
  - Decimal rendering of a number in a template string.
  - Counting the active markers in a group.

Indices are JavaScript numbers, modelled as `Num = Int(v) | NaN`. So the empty-gallery case
is modelled as the code behaves: `(i + 1) % 0` makes the index NaN, and after that the
render guard finds no image and changes nothing. A correct reimplementation might make
next/prev no-ops on an empty list instead. The model follows the code.

With zero slides, the code still attaches the prev/next and hover listeners. So leaving the
slider starts an interval even though no slide exists. The model follows the code here too:
the slider controller is not "uninitialised" in that case.

## Model

| member | source | states |
|---|---|---|
| JsValues.Rem | script.js:97 | JavaScript `%` with a positive divisor takes the dividend's sign: for a non-negative dividend the result lies in [0, b) and equals the mathematical remainder; for a negative one it lies in (-b, 0] and differs from the dividend by a multiple of b |
| JsValues.Mod | script.js:97 | `a % length` is NaN exactly when `a` is NaN or the length is 0; a non-negative index gives its remainder modulo the length, which is in range |
| JsValues.Succ | script.js:97 | `(i + 1) % n` is NaN exactly when the list is empty or `i` is NaN; an in-range `i` moves to `i + 1`, and `n - 1` wraps to 0 |
| JsValues.Pred | script.js:102 | `(i - 1 + n) % n` is NaN exactly when the list is empty or `i` is NaN; an in-range `i` moves to `i - 1`, and 0 wraps to `n - 1` |
| JsValues.SuccPredInverse | script.js:96-104 | for every valid index, prev undoes next and next undoes prev |
| JsValues.NumberToString | script.js:91 | the decimal text of `k + 1` in the caption template is a non-empty digit string with no leading zero, and it parses back to the number |
| JsValues.NumberToStringInjective | script.js:91 | different numbers render as different text |
| Markers.OnlyAt | script.js:208-209 | after `toggle('active', i === idx)` on each of n elements, element k is active exactly when idx is k; a NaN or out-of-range idx marks none |
| Markers.CountOnlyAt | script.js:208-209 | after `toggle('active', i === idx)` on every element, exactly one element is active if idx is a valid position, and none otherwise |
| Nav.Init | script.js:9 | the nav controller is wired up exactly when both the toggle and the menu exist |
| Nav.Toggle | script.js:10-13 | a toggle click negates each of the two markers and never wires or unwires the controller |
| Nav.CloseMenu | script.js:16-21 | a link click leaves both markers off, and never wires or unwires the controller |
| Nav.Handle | script.js:10-21 | a toggle click flips both markers and a link click clears both; neither wires or unwires the controller |
| Nav.ToggleFlips | script.js:10-13 | the toggle flips both markers, undoes itself when clicked twice, and keeps the markers in lockstep exactly when they were in lockstep before |
| Nav.LinkClickCloses | script.js:16-21 | a link click turns both markers off whatever they were before; doing it again changes nothing |
| Nav.RunKeepsLockstep | script.js:9-21 | menu and toggle markers that start equal stay equal under any sequence of clicks |
| Nav.LinkClickRestoresLockstep | script.js:15-21 | after a link click, the markers are in lockstep under any later clicks, even if the page started them unequal |
| Lightbox.FallbackCaption | script.js:91 | the generated caption for index k is "Image " followed by a digit string that reads back as k + 1 |
| Lightbox.CaptionFor | script.js:91 | the caption of image k is its alt text when that is non-empty, and otherwise "Image " followed by digits that read back as k + 1 |
| Lightbox.Init | script.js:50-64 | right after start-up, the index is 0, the collected images and the page's elements are kept, the shown src, alt and caption are the page's own, the overlay is not displayed, and the index invariant holds |
| Lightbox.ShowImage | script.js:85-94 | the render writes src, alt and caption only when the index addresses an image; the caption is written only if its element exists; a missing image element throws; index, display and overflow are never touched |
| Lightbox.Open | script.js:73-78 | opening item i records index i; an existing image is rendered (its src and alt, and its caption when the caption element exists), the overlay is displayed and scroll is locked; an item without an image still displays the overlay but leaves the old image; without an image element the render throws before writing anything, so only the index changes |
| Lightbox.Close | script.js:80-83 | closing hides the overlay and sets overflow to `auto`; the index and the rendered image are kept |
| Lightbox.NextImage | script.js:96-99 | next moves the index by the shared forward wrap step; when the new index addresses an image and the image element exists, that image's src, alt and caption are shown; when it addresses none, the shown image and caption are unchanged; without an image element the render throws and only the index changes; the overlay's visibility and scroll lock are left alone |
| Lightbox.PrevImage | script.js:101-104 | prev moves the index by the shared backward wrap step; when the new index addresses an image and the image element exists, that image's src, alt and caption are shown; when it addresses none, the shown image and caption are unchanged; without an image element the render throws and only the index changes; the overlay's visibility and scroll lock are left alone |
| Lightbox.OnKeyDown | script.js:119-133 | keys are ignored unless the overlay is displayed, and never change the images or elements; then Escape closes it and keeps the index, ArrowLeft steps back, ArrowRight steps forward, and any other key changes nothing |
| Lightbox.Handle | script.js:69-116 | an item click opens that item (index, render, overlay shown, scroll locked); close, prev and next do exactly what closing, prev and next do when their button exists, and change nothing otherwise; a click on the overlay background closes it, scroll restore included, and a click elsewhere changes nothing; the images and elements never change |
| Lightbox.NavigationWraps | script.js:96-104 | with a valid index, next and prev stay in range, `n - 1` wraps to 0, and 0 wraps to `n - 1` |
| Lightbox.NavigationUndoes | script.js:96-104 | with a valid index, prev undoes next and next undoes prev |
| Lightbox.NavigationLandsInRange | script.js:96-104 | from any non-negative index in a non-empty gallery (e.g. after opening an item without an image), one step lands on an existing image |
| Lightbox.EmptyGalleryNavigationRendersNothing | script.js:96-104 | in an empty gallery, next and prev make the index NaN and change nothing else |
| Lightbox.RenderGuard | script.js:85-94 | the render changes the state only if the index is valid and the image element exists; if so, it shows that image's src and alt and the caption rule applies |
| Lightbox.CaptionFallback | script.js:90-92 | the caption is the alt text when it is non-empty; otherwise it is "Image " followed by digits that read back as the 1-based position, and two positions never share a generated caption |
| Lightbox.ReopenShowsNewItem | script.js:73-83 | opening, closing and reopening on item j displays item j |
| Lightbox.KeyboardGating | script.js:119-133 | while the overlay is not displayed, every key is ignored; while it is, Escape closes, ArrowLeft goes back, ArrowRight goes forward, and other keys change nothing |
| Lightbox.OverlayClickClosesOnlyOnBackground | script.js:112-116 | a click closes the open overlay exactly when its target is the overlay itself, and then it is the full close that also gives page scroll back; any other target changes nothing |
| Lightbox.HandleKeepsIndexSound | script.js:106-133 | every event keeps the index a non-negative integer, or NaN only when the gallery is empty |
| Lightbox.RunKeepsIndexSound | script.js:106-133 | any sequence of events keeps that invariant, and a non-empty gallery never gets a NaN index |
| Lightbox.ThreeImageScenario | script.js:73-104 | with images A, B, C: open(0) shows A, prev wraps to C, and next wraps back to A |
| Autoplay.Truthy | script.js:223 | the `if (autoplayId)` test passes exactly when a handle is recorded, because interval ids are positive |
| Autoplay.Idle | script.js:189 | a slider that never started autoplay has no handle and no live interval |
| Autoplay.ClearRecorded | script.js:223 | clearing the recorded interval keeps the handle and leaves no interval live |
| Autoplay.Start | script.js:222-225 | starting records a fresh handle that differs from the old one; under the timer invariant, exactly that one interval is live afterwards |
| Autoplay.Reset | script.js:227-232 | reset does nothing without a recorded handle; with one, it replaces the interval by exactly one fresh live interval |
| Autoplay.Pause | script.js:234 | mouseenter stops every interval but keeps the handle recorded |
| Autoplay.PauseThenResetResumes | script.js:227-234 | after hovering, a reset restarts autoplay if autoplay was ever started; a never-started timer stays idle |
| Autoplay.StartLeavesOneInterval | script.js:222-225 | starting, even twice in a row, leaves exactly one live interval, and the old handle is no longer live |
| Slider.CreateDots | script.js:192-203 | with no container there are no dots; otherwise there is one dot per slide, and dot k jumps to slide k |
| Slider.Show | script.js:207-211 | show(idx) activates exactly the slide at idx, and no slide if idx is invalid or NaN; dots, when there are any, follow the same rule, so at most one is active; current becomes idx either way; the timer is untouched |
| Slider.Next | script.js:213 | next moves current by the shared forward wrap step: an in-range index goes to the following slide, and the last wraps to the first; afterwards exactly the slide (and the dot, when there are dots) at the new current is active; with no slides current becomes NaN and nothing is active; autoplay is untouched |
| Slider.Prev | script.js:214 | prev moves current by the shared backward wrap step: an in-range index goes to the preceding slide, and the first wraps to the last; afterwards exactly the slide (and the dot, when there are dots) at the new current is active; with no slides current becomes NaN and nothing is active; autoplay is untouched |
| Slider.GoTo | script.js:207-215 | goTo(i) makes current i and slide i the only active slide, or no slide when i is past the end; when there are dots, dot i likewise becomes the only active dot; autoplay is untouched |
| Slider.Handle | script.js:199-235 | the next and prev controls step the slider and reset autoplay when the control exists, and change nothing otherwise; a dot click jumps to the dot's slide without touching autoplay; an interval advances the slider only while it is live; mouseenter leaves the slides alone, stops every interval and keeps the handle; mouseleave leaves the slides alone and leaves exactly one interval live |
| Slider.Init | script.js:184-241 | the slides, the dots container and the prev/next controls are the page's; with at least one slide, start-up shows slide 0 and leaves exactly one live interval; with none, no interval runs and no handle is recorded; the slider invariant holds |
| Slider.ShowKeepsValid | script.js:207-215 | showing a valid index keeps the slider invariant |
| Slider.HandleKeepsValid | script.js:213-235 | every control, dot, interval and hover event keeps the slider invariant: index in range, exactly the current slide and dot active, at most one live interval, which is the recorded one |
| Slider.RunKeepsValid | script.js:207-241 | any sequence of events keeps the slider invariant |
| Slider.ValidMarkers | script.js:207-214 | in a valid non-empty slider, exactly one slide and at most one dot are active; next and prev stay in range and wrap at both ends |
| Slider.EmptySlider | script.js:213-241 | with no slides, start-up starts nothing; next makes current NaN and marks nothing; mouseleave still starts an interval |
| Slider.DotClickShowsSlide | script.js:199 | clicking dot k makes slide k and dot k the only active ones, and leaves autoplay untouched |
| Slider.HoverThenManualRestarts | script.js:218-235 | hovering stops autoplay but keeps the handle, so a later manual next or prev (when that control exists) restarts it; mouseleave always restarts it |
| Slider.ManualStepReschedules | script.js:218-232 | a manual next or prev (when that control exists) replaces the live interval by a fresh one, so the old schedule never fires again |
| Slider.InitThreeSlides | script.js:238-241 | start-up of three slides with dots activates slide 0 and dot 0 and records one live interval |
| Slider.ThreeSlideScenario | script.js:213-241 | with three slides: slide 0 after start-up, slide 1 after the interval fires, slide 2 after a manual next, which also retires the original interval |
| Tabs.FindPane | script.js:160 | finds the first pane in document order whose id is the name, or none exactly when no pane has that id |
| Tabs.ShowTab | script.js:148-167 | afterwards a pane is active exactly when it is the pane the name finds, and a button is active exactly when it is the clicked one; pane ids are unchanged |
| Tabs.ShowTabSingleActive | script.js:148-167 | exactly one pane is active if some pane has the name, and none otherwise; exactly one button is active if the click came from a tab button |
| Tabs.ShowTabIdempotent | script.js:148-167 | the result does not depend on the previous markers, so activating the same tab twice gives the same state as once |
| Tabs.IdsDetermineFind | script.js:160-163 | which pane a name selects depends only on the panes' ids |
| Page.StartSlider | script.js:184-241 | the slider starts from its own markup: one slide per marker, dots only with a container, the page's prev/next controls, the slider invariant, and, with slides, slide 0 and the first interval id recorded |
| Page.StartLightbox | script.js:53-64 | the lightbox exists exactly when its root element does, and it starts with a sound index over the collected images, the page's elements and the page's shown src, alt and caption |
| Page.ReadyAsWritten | script.js:180-244 | as written, the slider starts exactly when its root exists, and the lightbox starts only when both the slider root and the lightbox root exist |
| Page.Ready | script.js:180-244 | the intended start-up: each controller exists exactly when its root element does, starts from its own markup (the slider's slides and controls, the lightbox's images and elements), and satisfies its invariant |
| Page.GalleryWithoutSliderHasNoLightbox | script.js:181-182 | a page with a gallery but no hero slider gets no lightbox as written, but gets one under the intended start-up |
| Page.ReadyAgreesWithSlider | script.js:180-244 | the two start-ups agree on every page that has a slider, and differ only on pages with a lightbox but no slider |

## Findings

| source | as written | input that shows it | evidently intended | confidence | as-written member | corrected member |
|---|---|---|---|---|---|---|
| script.js:182 | `if (!slider) return;` leaves the document-ready handler before `initializeLightbox()` on line 244 | a page with a `#lightbox` and gallery items but no `#hero-slider` | the lightbox starts whenever its own root exists, whatever the slider does | medium; not executed | Page.GalleryWithoutSliderHasNoLightbox | Page.Ready |

## Left out

- DOM querying and listener registration (`querySelector`, `addEventListener`, `createElement`, `innerHTML`, the dots' class names and `aria-label`s). These are browser plumbing. Element presence is passed in as booleans, and each listener is one `Event` constructor.
- The unused helper `safeQuery` (lines 2-4). Nothing calls it.
- Smooth scrolling (lines 25-36). Its only logic is skipping a bare `#`. The rest is a browser scroll call.
- The navbar background swap (lines 39-47). It is a fixed threshold on `scrollY` that writes a CSS colour string.
- The IntersectionObserver reveal (lines 137-145 and 172-178). It is a browser API with geometric thresholds and style writes.
- Real time. The 4000 ms period of `setInterval` is not modelled; an interval firing is a `Tick(id)` event. "The next advance comes a full period after a manual click" is stated as: the old interval is retired and a fresh one is scheduled (`Slider.ManualStepReschedules`).
- Interval ids. Hosts hand out positive ids, which the type `Autoplay.TimerId` records, so the truthiness test `if (autoplayId)` (`Autoplay.Truthy`) passes exactly when a handle is recorded.
- The second and third definitions of `showTab` (lines 248-267 and 270-289). They are identical to the first, and the last one to be declared is the one that takes effect, so it is modelled once.
- Tabs.FindPane: `getElementById` searches the whole document. The model searches only the tab panes, so a name that matches the id of some other element is treated like a name that matches no pane.
- Tabs.ShowTab: `event.target` can be any element, including a child of a button. The model takes the index of the clicked tab button. An index outside the button group stands for some other target, whose marker is not tracked.
- Lightbox.Init: the overlay's inline `display` and the body's inline `overflow` start unset. A page that sets them inline is not modelled; for example, `style="display: block"` on the overlay would let the keyboard handler act before any open.
- Lightbox: `img.src` is the resolved URL string that the browser reports. The model copies the `src` string as given.

=== FILE: autoplay.dfy ===
/**
 The slider's autoplay timer, with clock time abstracted away. `handle` is the
 recorded `autoplayId` (null or an interval id), `live` is the set of
 intervals that are still scheduled, and `nextId` is the id the host will hand
 out on the next `setInterval`. Hosts return positive, increasing interval
 ids; `TimerId` carries the positivity, so the truthiness test
 `if (autoplayId)` holds exactly when a handle is recorded.
 */
module Autoplay {
  import opened JsValues

  /** An interval id as `setInterval` returns it: never 0, so never falsy. */
  type TimerId = x: nat | x > 0 witness 1

  datatype Timer = Timer(handle: Option<TimerId>, live: set<TimerId>, nextId: TimerId)

  /** JavaScript truthiness of the recorded `autoplayId`: null and 0 are falsy.
      As ids are positive, a handle is truthy exactly when one is recorded. */
  predicate Truthy(h: Option<TimerId>)
    ensures Truthy(h) <==> h.Some?
  {
    h.Some? && h.value != 0
  }

  /** The ids a handle accounts for. */
  function Recorded(h: Option<TimerId>): set<TimerId> {
    match h
    case None => {}
    case Some(id) => {id}
  }

  /** At most one interval is live and it is the recorded one; every id
      issued so far is below `nextId`. */
  predicate Valid(t: Timer) {
    && t.live <= Recorded(t.handle)
    && (t.handle.Some? ==> t.handle.value < t.nextId)
  }

  /** The timer of a slider that has not started autoplay. */
  function Idle(firstId: TimerId): (t: Timer)
    ensures Valid(t) && t.live == {} && t.handle.None? && t.nextId == firstId
  {
    Timer(None, {}, firstId)
  }

  /** `if (autoplayId) clearInterval(autoplayId)`: the handle itself is kept. */
  function ClearRecorded(t: Timer): (r: Timer)
    ensures r.handle == t.handle && r.nextId == t.nextId
    ensures r.live == t.live - Recorded(t.handle)
    ensures Valid(t) ==> Valid(r) && r.live == {}
  {
    t.(live := t.live - Recorded(t.handle))
  }

  /** `startAutoplay`: clears the recorded interval, then records and schedules a fresh one. */
  function Start(t: Timer): (r: Timer)
    ensures r.handle.Some? && t.live - Recorded(t.handle) <= r.live
    ensures Valid(t) ==> Valid(r) && r.live == {r.handle.value}
    ensures Valid(t) ==> r.handle.value !in t.live && r.handle != t.handle
  {
    var id := t.nextId;
    Timer(Some(id), ClearRecorded(t).live + {id}, id + 1)
  }

  /** `resetAutoplay`: restarts only when a handle is recorded. */
  function Reset(t: Timer): (r: Timer)
    ensures t.handle.None? ==> r == t
    ensures t.handle.Some? && Valid(t) ==> Valid(r) && r.handle.Some? && r.live == {r.handle.value} && r.handle != t.handle
  {
    if Truthy(t.handle) then Start(ClearRecorded(t)) else t
  }

  /** The hover handler (`mouseenter`): stops the interval but leaves the handle recorded. */
  function Pause(t: Timer): (r: Timer)
    ensures r.handle == t.handle
    ensures Valid(t) ==> Valid(r) && r.live == {}
  {
    ClearRecorded(t)
  }

  /** Hovering and then resetting (as a manual next or prev does) resumes autoplay
      whenever autoplay had ever been started; a never-started timer stays idle. */
  lemma PauseThenResetResumes(t: Timer)
    requires Valid(t)
    ensures t.handle.Some? ==> |Reset(Pause(t)).live| == 1
    ensures t.handle.None? ==> Reset(Pause(t)).live == {}
  {
  }

  /** Starting always leaves exactly one live interval, the new recorded one,
      whatever happened before; starting twice never leaves two. */
  lemma StartLeavesOneInterval(t: Timer)
    requires Valid(t)
    ensures |Start(t).live| == 1 && Start(t).handle.value in Start(t).live
    ensures |Start(Start(t)).live| == 1
    ensures t.handle.Some? ==> t.handle.value !in Start(t).live
  {
  }
}

=== FILE: js_values.dfy ===
/**
 The few JavaScript value semantics the controllers depend on: an optional
 value (a DOM lookup that may find nothing), an index that is a JavaScript
 number and can therefore become NaN, the truncating remainder operator `%`,
 and the decimal rendering of a number inside a template string.
 */
module JsValues {

  datatype Option<T> = None | Some(value: T)

  /** A JavaScript number used as an index: an integer, or NaN (what `x % 0` yields). */
  datatype Num = Int(v: int) | NaN {
    /** True when this number addresses one of `n` elements. */
    predicate InRange(n: int) {
      Int? && 0 <= v < n
    }
  }

  /** JavaScript's `%` on integers with a positive divisor: the remainder
      takes the sign of the dividend (truncating division). */
  function Rem(a: int, b: int): (r: int)
    requires b > 0
    ensures a >= 0 ==> 0 <= r < b && r == a % b
    ensures a < 0 ==> -b < r <= 0 && (a - r) % b == 0
  {
    if a >= 0 then a % b
    else
      var x := -a;
      MultipleHasNoRemainder(-(x / b), b);
      -(x % b)
  }

  /** A remainder is determined by any quotient/remainder decomposition of the dividend. */
  lemma RemainderUnique(a: int, b: int, q: int, m: int)
    requires b > 0 && a == q * b + m && 0 <= m < b
    ensures a % b == m
  {
    var q' := a / b;
    if q != q' {
      var k := if q > q' then q - q' else q' - q;
      AtLeastOnce(k, b);
      assert false;
    }
  }

  lemma AtLeastOnce(k: int, b: int)
    requires k >= 1 && b > 0
    ensures k * b >= b
  {
  }

  /** A multiple of `b` leaves no remainder. */
  lemma MultipleHasNoRemainder(q: int, b: int)
    requires b > 0
    ensures (q * b) % b == 0
  {
    RemainderUnique(q * b, b, q, 0);
  }

  /** `a + k` on a number; NaN absorbs. */
  function Add(a: Num, k: int): (r: Num)
    ensures r.NaN? <==> a.NaN?
    ensures a.Int? ==> r.v == a.v + k
  {
    match a
    case NaN => NaN
    case Int(x) => Int(x + k)
  }

  /** `a % n` where `n` is an array length: NaN when `a` is NaN or `n` is zero. */
  function Mod(a: Num, n: nat): (r: Num)
    ensures r.NaN? <==> a.NaN? || n == 0
    ensures a.Int? && a.v >= 0 && n > 0 ==> r.InRange(n) && r.v == a.v % n
  {
    if a.NaN? || n == 0 then NaN else Int(Rem(a.v, n))
  }

  /** The forward wrap-around step `(i + 1) % n` shared by the lightbox and the slider. */
  function Succ(i: Num, n: nat): (r: Num)
    ensures r.NaN? <==> i.NaN? || n == 0
    ensures i.Int? && i.v >= -1 && n > 0 ==> r.InRange(n)
    ensures i.InRange(n) ==> r == Int(if i.v == n - 1 then 0 else i.v + 1)
  {
    Mod(Add(i, 1), n)
  }

  /** The backward wrap-around step `(i - 1 + n) % n` shared by the lightbox and the slider. */
  function Pred(i: Num, n: nat): (r: Num)
    ensures r.NaN? <==> i.NaN? || n == 0
    ensures i.Int? && i.v >= 0 && n > 0 ==> r.InRange(n)
    ensures i.InRange(n) ==> r == Int(if i.v == 0 then n - 1 else i.v - 1)
  {
    if i.InRange(n) && i.v > 0 then
      AddPeriod(i.v - 1, n);
      Mod(Add(Add(i, -1), n), n)
    else
      Mod(Add(Add(i, -1), n), n)
  }

  /** Adding one period to a remainder does not change it. */
  lemma AddPeriod(a: int, n: int)
    requires 0 <= a < n
    ensures (a + n) % n == a
  {
  }

  /** Stepping back undoes stepping forward and vice versa, for every valid index. */
  lemma SuccPredInverse(i: Num, n: nat)
    requires i.InRange(n)
    ensures Pred(Succ(i, n), n) == i
    ensures Succ(Pred(i, n), n) == i
  {
  }

  predicate IsDigit(c: char) {
    '0' <= c <= '9'
  }

  predicate AllDigits(s: string) {
    forall k :: 0 <= k < |s| ==> IsDigit(s[k])
  }

  function DigitChar(d: nat): (c: char)
    requires d < 10
    ensures IsDigit(c)
  {
    "0123456789"[d]
  }

  /** Reads a string of decimal digits back as a number: the reference
      against which the rendering of numbers is checked. */
  function ParseDecimal(s: string): nat
    requires AllDigits(s)
  {
    if |s| == 0 then 0
    else ParseDecimal(s[..|s| - 1]) * 10 + (s[|s| - 1] as int - '0' as int)
  }

  /** The decimal text of a non-negative integer, as in a template string `${n}`. */
  function NumberToString(n: nat): (r: string)
    ensures |r| >= 1 && AllDigits(r)
    ensures r[0] == '0' ==> n == 0
    ensures ParseDecimal(r) == n
  {
    var last := [DigitChar(n % 10)];
    if n < 10 then last
    else
      var prefix := NumberToString(n / 10);
      var r := prefix + last;
      assert r[..|r| - 1] == prefix;
      r
  }

  /** Distinct numbers render as distinct text. */
  lemma NumberToStringInjective(a: nat, b: nat)
    requires NumberToString(a) == NumberToString(b)
    ensures a == b
  {
  }
}

=== FILE: lightbox.dfy ===
/**
 The lightbox gallery: an overlay that shows one image of a fixed list,
 navigated with wrap-around, closed by its close button, by a click on the
 overlay background or by Escape, and driven by the arrow keys while shown.

 The state holds what the handlers read and write: the collected images, the
 current index (a JavaScript number, so it can become NaN), the overlay's
 inline `display`, the page body's inline `overflow`, and the three rendered
 fields (the big image's `src` and `alt` and the caption text).
 */
module Lightbox {
  import opened JsValues

  datatype Image = Image(src: string, alt: string)

  /** The overlay's inline `display`: not yet written, `'block'`, or `'none'`. */
  datatype Display = DisplayUnset | Block | DisplayNone

  /** The body's inline `overflow`: not yet written, `'hidden'` (scroll locked) or `'auto'`. */
  datatype Overflow = OverflowUnset | OverflowHidden | OverflowAuto

  /** Which optional parts of the overlay exist on the page. */
  datatype Elements = Elements(img: bool, caption: bool, closeButton: bool, prevButton: bool, nextButton: bool)

  datatype Lightbox = Lightbox(
    images: seq<Image>,
    elements: Elements,
    index: Num,
    display: Display,
    bodyOverflow: Overflow,
    shownSrc: string,
    shownAlt: string,
    caption: string)

  /** The outcome of a render: it either completes or throws part-way (writing
      `src` on a missing image element); a throw ends the enclosing handler. */
  datatype Run = Completed(state: Lightbox) | Threw(state: Lightbox)

  /** Every interaction the controller listens to. `ItemClick(i)` is a click on
      the i-th gallery item, which need not contain an image; `OverlayClick`
      records whether the click's target is the overlay element itself. */
  datatype Event =
    | ItemClick(i: nat)
    | CloseClick
    | PrevClick
    | NextClick
    | OverlayClick(onOverlay: bool)
    | KeyDown(key: string)

  /** The generated caption for an image without alt text: "Image " and its 1-based position. */
  function FallbackCaption(k: nat): (r: string)
    ensures |r| > 6 && r[..6] == "Image "
    ensures AllDigits(r[6..]) && ParseDecimal(r[6..]) == k + 1
  {
    var digits := NumberToString(k + 1);
    assert ("Image " + digits)[6..] == digits;
    "Image " + digits
  }

  /** The caption shown for image `k`: its alt text, or the generated one when that is empty. */
  function CaptionFor(images: seq<Image>, k: nat): (r: string)
    requires k < |images|
    ensures images[k].alt != "" ==> r == images[k].alt
    ensures images[k].alt == "" ==> |r| > 6 && r[..6] == "Image " && AllDigits(r[6..]) && ParseDecimal(r[6..]) == k + 1
  {
    if images[k].alt != "" then images[k].alt else FallbackCaption(k)
  }

  /** The state right after initialisation: the images are collected, the index is 0
      and nothing has been written to the overlay yet. */
  function Init(images: seq<Image>, elements: Elements, src: string, alt: string, caption: string): (r: Lightbox)
    ensures r.images == images && r.index == Int(0)
    ensures r.elements == elements && r.shownSrc == src && r.shownAlt == alt && r.caption == caption
    ensures r.display != Block
    ensures IndexSound(r)
  {
    Lightbox(images, elements, Int(0), DisplayUnset, OverflowUnset, src, alt, caption)
  }

  /** Renders the current image when the index addresses one; otherwise leaves everything alone. */
  function ShowImage(s: Lightbox): (r: Run)
    ensures r.state.images == s.images && r.state.elements == s.elements && r.state.index == s.index
    ensures r.state.display == s.display && r.state.bodyOverflow == s.bodyOverflow
    ensures !s.index.InRange(|s.images|) ==> r == Completed(s)
    ensures r.Threw? <==> s.index.InRange(|s.images|) && !s.elements.img
    ensures r.Completed? && s.index.InRange(|s.images|) ==>
      && r.state.shownSrc == s.images[s.index.v].src
      && r.state.shownAlt == s.images[s.index.v].alt
      && r.state.caption == (if s.elements.caption then CaptionFor(s.images, s.index.v) else s.caption)
  {
    if s.index.InRange(|s.images|) then
      var k := s.index.v;
      var img := s.images[k];
      if !s.elements.img then Threw(s)
      else
        var s' := s.(shownSrc := img.src, shownAlt := img.alt);
        if s.elements.caption then Completed(s'.(caption := CaptionFor(s.images, k))) else Completed(s')
    else
      Completed(s)
  }

  /** Records the index, renders, then shows the overlay and locks page scroll;
      a throwing render stops before the overlay is shown. */
  function Open(s: Lightbox, i: nat): (r: Lightbox)
    ensures r.images == s.images && r.elements == s.elements && r.index == Int(i)
    ensures i < |s.images| && s.elements.img ==>
      r.display == Block && r.bodyOverflow == OverflowHidden
      && r.shownSrc == s.images[i].src && r.shownAlt == s.images[i].alt
    ensures i < |s.images| && s.elements.img ==>
      r.caption == if s.elements.caption then CaptionFor(s.images, i) else s.caption
    ensures i < |s.images| && !s.elements.img ==> r == s.(index := Int(i))
    ensures i >= |s.images| ==>
      r.display == Block && r.bodyOverflow == OverflowHidden
      && r.shownSrc == s.shownSrc && r.shownAlt == s.shownAlt && r.caption == s.caption
  {
    match ShowImage(s.(index := Int(i)))
    case Threw(s') => s'
    case Completed(s') => s'.(display := Block, bodyOverflow := OverflowHidden)
  }

  /** Hides the overlay and gives page scroll back; the index and the rendered image stay. */
  function Close(s: Lightbox): (r: Lightbox)
    ensures r.display == DisplayNone && r.bodyOverflow == OverflowAuto
    ensures r.images == s.images && r.elements == s.elements && r.index == s.index
    ensures r.shownSrc == s.shownSrc && r.shownAlt == s.shownAlt && r.caption == s.caption
  {
    s.(display := DisplayNone, bodyOverflow := OverflowAuto)
  }

  /** Advances with wrap-around and renders. */
  function NextImage(s: Lightbox): (r: Lightbox)
    ensures r.images == s.images && r.display == s.display && r.bodyOverflow == s.bodyOverflow
    ensures r.index == Succ(s.index, |s.images|)
    ensures s.elements.img && r.index.InRange(|s.images|) ==>
      r.shownSrc == s.images[r.index.v].src && r.shownAlt == s.images[r.index.v].alt
    ensures s.elements.img && s.elements.caption && r.index.InRange(|s.images|) ==>
      r.caption == CaptionFor(s.images, r.index.v)
    ensures !r.index.InRange(|s.images|) ==>
      r.shownSrc == s.shownSrc && r.shownAlt == s.shownAlt && r.caption == s.caption
    ensures !s.elements.img ==> r == s.(index := r.index)
  {
    ShowImage(s.(index := Succ(s.index, |s.images|))).state
  }

  /** Steps back with wrap-around and renders. */
  function PrevImage(s: Lightbox): (r: Lightbox)
    ensures r.images == s.images && r.display == s.display && r.bodyOverflow == s.bodyOverflow
    ensures r.index == Pred(s.index, |s.images|)
    ensures s.elements.img && r.index.InRange(|s.images|) ==>
      r.shownSrc == s.images[r.index.v].src && r.shownAlt == s.images[r.index.v].alt
    ensures s.elements.img && s.elements.caption && r.index.InRange(|s.images|) ==>
      r.caption == CaptionFor(s.images, r.index.v)
    ensures !r.index.InRange(|s.images|) ==>
      r.shownSrc == s.shownSrc && r.shownAlt == s.shownAlt && r.caption == s.caption
    ensures !s.elements.img ==> r == s.(index := r.index)
  {
    ShowImage(s.(index := Pred(s.index, |s.images|))).state
  }

  /** Keys act only while the overlay is displayed; only three keys are bound. */
  function OnKeyDown(s: Lightbox, key: string): (r: Lightbox)
    ensures r.images == s.images && r.elements == s.elements
    ensures s.display != Block ==> r == s
    ensures key != "Escape" && key != "ArrowLeft" && key != "ArrowRight" ==> r == s
    ensures s.display == Block && key == "Escape" ==> r.display == DisplayNone && r.index == s.index
    ensures s.display == Block && key == "ArrowLeft" ==> r.index == Pred(s.index, |s.images|)
    ensures s.display == Block && key == "ArrowRight" ==> r.index == Succ(s.index, |s.images|)
  {
    if s.display == Block then
      if key == "Escape" then Close(s)
      else if key == "ArrowLeft" then PrevImage(s)
      else if key == "ArrowRight" then NextImage(s)
      else s
    else s
  }

  /** Dispatch of one event; a button that is missing from the page has no listener. */
  function Handle(s: Lightbox, e: Event): (r: Lightbox)
    ensures r.images == s.images && r.elements == s.elements
    ensures e.ItemClick? ==> r.index == Int(e.i)
    ensures e == CloseClick ==> if s.elements.closeButton then r.display == DisplayNone else r == s
    ensures e == PrevClick ==> if s.elements.prevButton then r.index == Pred(s.index, |s.images|) else r == s
    ensures e == NextClick ==> if s.elements.nextButton then r.index == Succ(s.index, |s.images|) else r == s
    ensures e.OverlayClick? ==> if e.onOverlay then r.display == DisplayNone else r == s
    ensures e.ItemClick? ==> r == Open(s, e.i)
    ensures e == CloseClick && s.elements.closeButton ==> r == Close(s)
    ensures e == PrevClick && s.elements.prevButton ==> r == PrevImage(s)
    ensures e == NextClick && s.elements.nextButton ==> r == NextImage(s)
    ensures e.OverlayClick? && e.onOverlay ==> r == Close(s)
  {
    match e
    case ItemClick(i) => Open(s, i)
    case CloseClick => if s.elements.closeButton then Close(s) else s
    case PrevClick => if s.elements.prevButton then PrevImage(s) else s
    case NextClick => if s.elements.nextButton then NextImage(s) else s
    case OverlayClick(onOverlay) => if onOverlay then Close(s) else s
    case KeyDown(key) => OnKeyDown(s, key)
  }

  /** The index is a non-negative integer, and it is NaN only after navigating an empty gallery. */
  predicate IndexSound(s: Lightbox) {
    (s.index.Int? && s.index.v >= 0) || (s.index.NaN? && |s.images| == 0)
  }

  /** Next and prev stay in range and wrap around in both directions. */
  lemma NavigationWraps(s: Lightbox)
    requires s.index.InRange(|s.images|)
    ensures NextImage(s).index.InRange(|s.images|) && PrevImage(s).index.InRange(|s.images|)
    ensures s.index.v == |s.images| - 1 ==> NextImage(s).index == Int(0)
    ensures s.index.v == 0 ==> PrevImage(s).index == Int(|s.images| - 1)
  {
  }

  /** Next and prev undo each other. */
  lemma NavigationUndoes(s: Lightbox)
    requires s.index.InRange(|s.images|)
    ensures PrevImage(NextImage(s)).index == s.index
    ensures NextImage(PrevImage(s)).index == s.index
  {
    SuccPredInverse(s.index, |s.images|);
  }

  /** From any sound state of a non-empty gallery, one step lands on an existing image. */
  lemma NavigationLandsInRange(s: Lightbox)
    requires IndexSound(s) && |s.images| > 0
    ensures NextImage(s).index.InRange(|s.images|)
    ensures PrevImage(s).index.InRange(|s.images|)
  {
  }

  /** In an empty gallery next and prev render nothing: the index becomes NaN and the
      overlay, the image and the caption stay as they were. */
  lemma EmptyGalleryNavigationRendersNothing(s: Lightbox)
    requires |s.images| == 0
    ensures NextImage(s) == s.(index := NaN)
    ensures PrevImage(s) == s.(index := NaN)
  {
  }

  /** The render changes the shown image and caption if and only if the index addresses
      an image and the image element exists (the caption also needs its element). */
  lemma RenderGuard(s: Lightbox)
    ensures ShowImage(s).state != s ==> s.index.InRange(|s.images|) && s.elements.img
    ensures s.index.InRange(|s.images|) && s.elements.img ==>
      ShowImage(s).state.shownSrc == s.images[s.index.v].src
      && ShowImage(s).state.shownAlt == s.images[s.index.v].alt
    ensures s.index.InRange(|s.images|) && s.elements.img && s.elements.caption ==>
      ShowImage(s).state.caption == CaptionFor(s.images, s.index.v)
  {
  }

  /** The caption is the alt text when there is one; otherwise it names the image's
      1-based position, and two different positions never share a generated caption. */
  lemma CaptionFallback(images: seq<Image>, j: nat, k: nat)
    requires j < |images| && k < |images|
    ensures images[j].alt != "" ==> CaptionFor(images, j) == images[j].alt
    ensures images[j].alt == "" ==> CaptionFor(images, j)[..6] == "Image "
    ensures images[j].alt == "" ==>
      AllDigits(CaptionFor(images, j)[6..]) && ParseDecimal(CaptionFor(images, j)[6..]) == j + 1
    ensures images[j].alt == "" && images[k].alt == "" && j != k ==> CaptionFor(images, j) != CaptionFor(images, k)
  {
  }

  /** Opening, closing and reopening on another item shows that item. */
  lemma ReopenShowsNewItem(s: Lightbox, i: nat, j: nat)
    requires j < |s.images| && s.elements.img
    ensures Open(Close(Open(s, i)), j).shownSrc == s.images[j].src
    ensures Open(Close(Open(s, i)), j).shownAlt == s.images[j].alt
    ensures Open(Close(Open(s, i)), j).display == Block
  {
  }

  /** Keyboard gating: while the overlay is not displayed every key is ignored; while it is,
      Escape closes, ArrowLeft steps back, ArrowRight steps forward and other keys do nothing. */
  lemma KeyboardGating(s: Lightbox, key: string)
    ensures s.display != Block ==> Handle(s, KeyDown(key)) == s
    ensures s.display == Block && key == "Escape" ==> Handle(s, KeyDown(key)) == Close(s)
    ensures s.display == Block && key == "ArrowLeft" ==> Handle(s, KeyDown(key)) == PrevImage(s)
    ensures s.display == Block && key == "ArrowRight" ==> Handle(s, KeyDown(key)) == NextImage(s)
    ensures key !in {"Escape", "ArrowLeft", "ArrowRight"} ==> Handle(s, KeyDown(key)) == s
  {
  }

  /** A click on the overlay closes it exactly when the click's target is the overlay itself. */
  lemma OverlayClickClosesOnlyOnBackground(s: Lightbox, onOverlay: bool)
    requires s.display == Block
    ensures Handle(s, OverlayClick(onOverlay)).display == DisplayNone <==> onOverlay
    ensures !onOverlay ==> Handle(s, OverlayClick(onOverlay)) == s
    ensures onOverlay ==> Handle(s, OverlayClick(onOverlay)) == Close(s)
    ensures onOverlay ==> Handle(s, OverlayClick(onOverlay)).bodyOverflow == OverflowAuto
  {
  }

  /** Every event keeps the index sound. */
  lemma HandleKeepsIndexSound(s: Lightbox, e: Event)
    requires IndexSound(s)
    ensures IndexSound(Handle(s, e))
  {
  }

  function RunEvents(s: Lightbox, es: seq<Event>): Lightbox
    decreases |es|
  {
    if |es| == 0 then s else RunEvents(Handle(s, es[0]), es[1..])
  }

  /** Any sequence of events keeps the index sound; in a non-empty gallery the index is then
      never NaN. */
  lemma {:induction false} RunKeepsIndexSound(s: Lightbox, es: seq<Event>)
    requires IndexSound(s)
    ensures IndexSound(RunEvents(s, es))
    ensures |s.images| > 0 ==> RunEvents(s, es).index.Int?
    decreases |es|
  {
    if |es| > 0 {
      HandleKeepsIndexSound(s, es[0]);
      RunKeepsIndexSound(Handle(s, es[0]), es[1..]);
    }
  }

  /** Three images A, B, C: open on A, prev wraps to C, next wraps back to A. */
  lemma ThreeImageScenario(a: Image, b: Image, c: Image, el: Elements)
    requires el.img
    ensures
      var s0 := Init([a, b, c], el, "", "", "");
      var s1 := Open(s0, 0);
      var s2 := PrevImage(s1);
      var s3 := NextImage(s2);
      && s1.index == Int(0) && s1.shownSrc == a.src
      && s2.index == Int(2) && s2.shownSrc == c.src
      && s3.index == Int(0) && s3.shownSrc == a.src
  {
  }
}

=== FILE: markers.dfy ===
/**
 "Active" markers: the `active` class carried by slides, dots, panes and
 buttons, modelled as one boolean per element of a group.
 */
module Markers {
  import opened JsValues

  /** The number of elements of a group that carry the marker. */
  function CountTrue(s: seq<bool>): (r: nat)
    ensures r <= |s|
    ensures r == 0 <==> forall k :: 0 <= k < |s| ==> !s[k]
  {
    if |s| == 0 then 0
    else CountTrue(s[..|s| - 1]) + (if s[|s| - 1] then 1 else 0)
  }

  /** The markers of `n` elements after `el.classList.toggle('active', i === idx)`
      has run on each element `i`. */
  function OnlyAt(n: nat, idx: Num): (r: seq<bool>)
    ensures |r| == n
    ensures forall k :: 0 <= k < n ==> (r[k] <==> idx == Int(k))
  {
    seq(n, k => idx == Int(k))
  }

  /** Marking "only idx" leaves exactly one active element when idx addresses
      one of the group, and none otherwise (an out-of-range index or NaN). */
  lemma {:induction false} CountOnlyAt(n: nat, idx: Num)
    ensures CountTrue(OnlyAt(n, idx)) == if idx.InRange(n) then 1 else 0
  {
    if n > 0 {
      var s := OnlyAt(n, idx);
      assert s[..n - 1] == OnlyAt(n - 1, idx);
      CountOnlyAt(n - 1, idx);
    }
  }
}

=== FILE: nav.dfy ===
/**
 The navigation menu: the `active` markers of the menu and of its toggle
 button. The controller is wired up only when both elements exist.
 */
module Nav {

  datatype Nav = Disabled | Enabled(menuActive: bool, toggleActive: bool)

  datatype Event = ToggleClick | LinkClick

  /** Both elements present: the handlers are attached and the markers are
      whatever the page starts with; otherwise nothing is wired. */
  function Init(hasToggle: bool, hasMenu: bool, menuActive: bool, toggleActive: bool): (r: Nav)
    ensures r.Enabled? <==> hasToggle && hasMenu
    ensures r.Enabled? ==> r.menuActive == menuActive && r.toggleActive == toggleActive
  {
    if hasToggle && hasMenu then Enabled(menuActive, toggleActive) else Disabled
  }

  /** A click on the toggle flips each marker independently. */
  function Toggle(n: Nav): (r: Nav)
    ensures r.Enabled? <==> n.Enabled?
    ensures n.Enabled? ==> r.menuActive == !n.menuActive && r.toggleActive == !n.toggleActive
  {
    match n
    case Disabled => Disabled
    case Enabled(m, t) => Enabled(!m, !t)
  }

  /** A click on any navigation link removes both markers. */
  function CloseMenu(n: Nav): (r: Nav)
    ensures r.Enabled? <==> n.Enabled?
    ensures r.Enabled? ==> !r.menuActive && !r.toggleActive
  {
    match n
    case Disabled => Disabled
    case Enabled(_, _) => Enabled(false, false)
  }

  /** The two listeners: the toggle's click and every link's click. */
  function Handle(n: Nav, e: Event): (r: Nav)
    ensures r.Enabled? <==> n.Enabled?
    ensures e == ToggleClick && n.Enabled? ==> r.menuActive != n.menuActive && r.toggleActive != n.toggleActive
    ensures e == LinkClick && n.Enabled? ==> !r.menuActive && !r.toggleActive
  {
    match e
    case ToggleClick => Toggle(n)
    case LinkClick => CloseMenu(n)
  }

  /** Applies a sequence of clicks in order. */
  function Run(n: Nav, es: seq<Event>): Nav
    decreases |es|
  {
    if |es| == 0 then n else Run(Handle(n, es[0]), es[1..])
  }

  /** The menu and the toggle agree on whether the menu is open. */
  predicate Lockstep(n: Nav) {
    n.Disabled? || n.menuActive == n.toggleActive
  }

  /** The toggle flips the open state of both elements, never wires or unwires
      the controller, and undoes itself when clicked twice. */
  lemma ToggleFlips(n: Nav)
    ensures Toggle(n).Enabled? <==> n.Enabled?
    ensures n.Enabled? ==> Toggle(n).menuActive != n.menuActive && Toggle(n).toggleActive != n.toggleActive
    ensures Toggle(Toggle(n)) == n
    ensures Lockstep(Toggle(n)) <==> Lockstep(n)
  {
  }

  /** A link click closes the menu whatever the prior state, and closing is idempotent. */
  lemma LinkClickCloses(n: Nav)
    ensures n.Enabled? ==> !CloseMenu(n).menuActive && !CloseMenu(n).toggleActive
    ensures Lockstep(CloseMenu(n))
    ensures CloseMenu(CloseMenu(n)) == CloseMenu(n)
    ensures n.Disabled? ==> CloseMenu(n) == Disabled
  {
  }

  /** Markers that start in lockstep stay in lockstep under any sequence of clicks. */
  lemma {:induction false} RunKeepsLockstep(n: Nav, es: seq<Event>)
    requires Lockstep(n)
    ensures Lockstep(Run(n, es))
    ensures Run(n, es).Enabled? <==> n.Enabled?
    decreases |es|
  {
    if |es| > 0 {
      ToggleFlips(n);
      LinkClickCloses(n);
      RunKeepsLockstep(Handle(n, es[0]), es[1..]);
    }
  }

  /** Once a link has been clicked the markers are in lockstep, whatever the page started with. */
  lemma {:induction false} LinkClickRestoresLockstep(n: Nav, es: seq<Event>)
    ensures Lockstep(Run(CloseMenu(n), es))
  {
    LinkClickCloses(n);
    RunKeepsLockstep(CloseMenu(n), es);
  }
}

=== FILE: page.dfy ===
/**
 Page start-up: the document-ready handler that initialises the hero slider
 and then the lightbox. Each controller disables itself when its root element
 is missing from the page.

 As written, the handler returns as soon as it finds no hero slider, before it
 reaches the lightbox initialisation at its end, so a page with a gallery but
 no slider gets no lightbox. `ReadyAsWritten` models that order; `Ready` is the
 evidently intended start-up, in which the two controllers are independent.
 */
module Page {
  import opened JsValues
  import Slider
  import Lightbox
  import Autoplay

  datatype SliderMarkup = SliderMarkup(markers: seq<bool>, hasDots: bool, hasPrev: bool, hasNext: bool)

  datatype LightboxMarkup = LightboxMarkup(
    images: seq<Lightbox.Image>,
    elements: Lightbox.Elements,
    src: string,
    alt: string,
    caption: string)

  /** What the page contains: the slider root and the lightbox root are optional. */
  datatype Markup = Markup(slider: Option<SliderMarkup>, lightbox: Option<LightboxMarkup>, firstTimerId: Autoplay.TimerId)

  /** The controllers that are live after start-up. */
  datatype Controllers = Controllers(slider: Option<Slider.Slider>, lightbox: Option<Lightbox.Lightbox>)

  /** The slider started from its markup: its slides, its dots container and its controls. */
  function StartSlider(m: SliderMarkup, firstTimerId: Autoplay.TimerId): (r: Slider.Slider)
    ensures |r.slides| == |m.markers| && r.hasPrev == m.hasPrev && r.hasNext == m.hasNext
    ensures |r.dots| == if m.hasDots then |m.markers| else 0
    ensures Slider.Valid(r)
    ensures |m.markers| > 0 ==> r.current == Int(0) && r.timer.handle == Some(firstTimerId)
  {
    Slider.Init(m.markers, m.hasDots, m.hasPrev, m.hasNext, firstTimerId)
  }

  /** `initializeLightbox`: nothing without the lightbox root. */
  function StartLightbox(m: Option<LightboxMarkup>): (r: Option<Lightbox.Lightbox>)
    ensures r.Some? <==> m.Some?
    ensures r.Some? ==> Lightbox.IndexSound(r.value) && r.value.images == m.value.images
    ensures r.Some? ==> r.value.elements == m.value.elements
    ensures r.Some? ==> r.value.shownSrc == m.value.src && r.value.shownAlt == m.value.alt && r.value.caption == m.value.caption
  {
    match m
    case None => None
    case Some(l) => Some(Lightbox.Init(l.images, l.elements, l.src, l.alt, l.caption))
  }

  /** The handler as written: the early return for a missing slider also skips the lightbox. */
  function ReadyAsWritten(p: Markup): (r: Controllers)
    ensures r.slider.Some? <==> p.slider.Some?
    ensures r.lightbox.Some? <==> p.slider.Some? && p.lightbox.Some?
  {
    match p.slider
    case None => Controllers(None, None)
    case Some(m) => Controllers(Some(StartSlider(m, p.firstTimerId)), StartLightbox(p.lightbox))
  }

  /** The intended start-up: each controller exists exactly when its root element does,
      and each starts in a state satisfying its invariant. */
  function Ready(p: Markup): (r: Controllers)
    ensures r.slider.Some? <==> p.slider.Some?
    ensures r.lightbox.Some? <==> p.lightbox.Some?
    ensures r.slider.Some? ==> Slider.Valid(r.slider.value)
    ensures r.lightbox.Some? ==> Lightbox.IndexSound(r.lightbox.value)
    ensures r.slider.Some? ==>
      && |r.slider.value.slides| == |p.slider.value.markers|
      && r.slider.value.hasPrev == p.slider.value.hasPrev
      && r.slider.value.hasNext == p.slider.value.hasNext
    ensures r.lightbox.Some? ==>
      r.lightbox.value.images == p.lightbox.value.images && r.lightbox.value.elements == p.lightbox.value.elements
  {
    var slider := match p.slider
      case None => None
      case Some(m) => Some(StartSlider(m, p.firstTimerId));
    Controllers(slider, StartLightbox(p.lightbox))
  }

  /** A page with a one-image gallery and no hero slider: as written it gets no
      lightbox, while the intended start-up gives it one. */
  lemma GalleryWithoutSliderHasNoLightbox()
    ensures
      var p := Markup(None, Some(LightboxMarkup([Lightbox.Image("a.jpg", "A")],
                                                Lightbox.Elements(true, true, true, true, true), "", "", "")), 1);
      ReadyAsWritten(p).lightbox.None? && Ready(p).lightbox.Some?
  {
  }

  /** The two start-ups differ only on pages without a slider. */
  lemma ReadyAgreesWithSlider(p: Markup)
    ensures p.slider.Some? ==> ReadyAsWritten(p) == Ready(p)
    ensures ReadyAsWritten(p) != Ready(p) ==> p.slider.None? && p.lightbox.Some?
  {
  }
}

=== FILE: slider.dfy ===
/**
 The hero slider: a current index over a fixed list of slides, the `active`
 markers of the slides and of the dynamically created dots, manual prev/next
 controls that also reset autoplay, dots that jump to their slide, and an
 autoplay interval that advances the slider and pauses while hovered.
 */
module Slider {
  import opened JsValues
  import opened Markers
  import Autoplay

  /** `dots[k]` is the slide index dot `k` jumps to; `dotActive[k]` its marker. */
  datatype Slider = Slider(
    slides: seq<bool>,
    dots: seq<nat>,
    dotActive: seq<bool>,
    current: Num,
    timer: Autoplay.Timer,
    hasPrev: bool,
    hasNext: bool)

  /** Every interaction: the prev/next controls, a click on dot `k`, the firing of
      interval `id`, and the mouse entering or leaving the slider. */
  datatype Event = PrevClick | NextClick | DotClick(k: nat) | Tick(id: Autoplay.TimerId) | MouseEnter | MouseLeave

  /** `createDots`: no container, no dots; otherwise one dot per slide, in order. */
  function CreateDots(hasContainer: bool, n: nat): (r: seq<nat>)
    ensures |r| == if hasContainer then n else 0
    ensures forall k :: 0 <= k < |r| ==> r[k] == k
  {
    if hasContainer then seq(n, k => k) else []
  }

  /** `show(idx)`: each slide, and each dot when there are any, is active exactly
      when its position equals idx; `current` becomes idx whether or not it is valid. */
  function Show(s: Slider, idx: Num): (r: Slider)
    ensures r.current == idx && r.timer == s.timer && r.dots == s.dots
    ensures |r.slides| == |s.slides|
    ensures |s.dotActive| == |s.dots| ==> |r.dotActive| == |s.dots|
    ensures forall k :: 0 <= k < |r.slides| ==> (r.slides[k] <==> idx == Int(k))
    ensures CountTrue(r.slides) == if idx.InRange(|s.slides|) then 1 else 0
    ensures |s.dots| > 0 && |s.dotActive| == |s.dots| ==>
      && (forall k :: 0 <= k < |r.dotActive| ==> (r.dotActive[k] <==> idx == Int(k)))
      && CountTrue(r.dotActive) <= 1
  {
    CountOnlyAt(|s.slides|, idx);
    CountOnlyAt(|s.dots|, idx);
    s.(slides := OnlyAt(|s.slides|, idx),
       dotActive := if |s.dots| > 0 then OnlyAt(|s.dots|, idx) else s.dotActive,
       current := idx)
  }

  /** `next()`: the index after `current`, wrapping from the last slide to the first. */
  function Next(s: Slider): (r: Slider)
    ensures r.current == Succ(s.current, |s.slides|)
    ensures forall k :: 0 <= k < |r.slides| ==> (r.slides[k] <==> r.current == Int(k))
    ensures |s.dots| > 0 && |s.dotActive| == |s.dots| ==>
      forall k :: 0 <= k < |r.dotActive| ==> (r.dotActive[k] <==> r.current == Int(k))
    ensures s.current.InRange(|s.slides|) ==>
      r.current == Int(if s.current.v == |s.slides| - 1 then 0 else s.current.v + 1)
    ensures r.timer == s.timer && r.dots == s.dots && |r.slides| == |s.slides|
    ensures s.current.InRange(|s.slides|) ==> CountTrue(r.slides) == 1
    ensures |s.slides| == 0 ==> r.current == NaN && CountTrue(r.slides) == 0
  {
    Show(s, Succ(s.current, |s.slides|))
  }

  /** `prev()`: the index before `current`, wrapping from the first slide to the last. */
  function Prev(s: Slider): (r: Slider)
    ensures r.current == Pred(s.current, |s.slides|)
    ensures forall k :: 0 <= k < |r.slides| ==> (r.slides[k] <==> r.current == Int(k))
    ensures |s.dots| > 0 && |s.dotActive| == |s.dots| ==>
      forall k :: 0 <= k < |r.dotActive| ==> (r.dotActive[k] <==> r.current == Int(k))
    ensures s.current.InRange(|s.slides|) ==>
      r.current == Int(if s.current.v == 0 then |s.slides| - 1 else s.current.v - 1)
    ensures r.timer == s.timer && r.dots == s.dots && |r.slides| == |s.slides|
    ensures s.current.InRange(|s.slides|) ==> CountTrue(r.slides) == 1
    ensures |s.slides| == 0 ==> r.current == NaN && CountTrue(r.slides) == 0
  {
    Show(s, Pred(s.current, |s.slides|))
  }

  /** `goTo(i)`: slide i becomes the only active one; an index past the end marks nothing. */
  function GoTo(s: Slider, i: nat): (r: Slider)
    ensures r.current == Int(i) && r.timer == s.timer && r.dots == s.dots
    ensures forall k :: 0 <= k < |r.slides| ==> (r.slides[k] <==> k == i)
    ensures CountTrue(r.slides) == if i < |s.slides| then 1 else 0
    ensures |s.dots| > 0 && |s.dotActive| == |s.dots| ==>
      forall k :: 0 <= k < |r.dotActive| ==> (r.dotActive[k] <==> k == i)
  {
    Show(s, Int(i))
  }

  /** Dispatch of one event. The controls call next/prev and then reset autoplay;
      a dot only jumps; an interval advances the slider only while it is live;
      hovering pauses autoplay and leaving restarts it, neither moving the slider. */
  function Handle(s: Slider, e: Event): (r: Slider)
    ensures r.dots == s.dots && |r.slides| == |s.slides| && r.hasPrev == s.hasPrev && r.hasNext == s.hasNext
    ensures e.NextClick? ==>
      if s.hasNext then r.current == Succ(s.current, |s.slides|) && r.timer == Autoplay.Reset(s.timer) else r == s
    ensures e.PrevClick? ==>
      if s.hasPrev then r.current == Pred(s.current, |s.slides|) && r.timer == Autoplay.Reset(s.timer) else r == s
    ensures e.DotClick? ==>
      if e.k < |s.dots| then r.current == Int(s.dots[e.k]) && r.timer == s.timer else r == s
    ensures e.Tick? ==>
      if e.id in s.timer.live then r.current == Succ(s.current, |s.slides|) && r.timer == s.timer else r == s
    ensures e.MouseEnter? || e.MouseLeave? ==>
      r.current == s.current && r.slides == s.slides && r.dotActive == s.dotActive
    ensures e.MouseEnter? && Autoplay.Valid(s.timer) ==> r.timer.live == {} && r.timer.handle == s.timer.handle
    ensures e.MouseLeave? && Autoplay.Valid(s.timer) ==> |r.timer.live| == 1
  {
    match e
    case NextClick =>
      if s.hasNext then var s' := Next(s); s'.(timer := Autoplay.Reset(s'.timer)) else s
    case PrevClick =>
      if s.hasPrev then var s' := Prev(s); s'.(timer := Autoplay.Reset(s'.timer)) else s
    case DotClick(k) => if k < |s.dots| then GoTo(s, s.dots[k]) else s
    case Tick(id) => if id in s.timer.live then Next(s) else s
    case MouseEnter => s.(timer := Autoplay.Pause(s.timer))
    case MouseLeave => s.(timer := Autoplay.Start(s.timer))
  }

  function RunEvents(s: Slider, es: seq<Event>): Slider
    decreases |es|
  {
    if |es| == 0 then s else RunEvents(Handle(s, es[0]), es[1..])
  }

  /** Initialisation: create the dots, then, only when there is at least one slide,
      show slide 0 and start autoplay. `markers` are the slides' markers as the
      page declares them; `firstId` is the id the host hands out next. */
  function Init(markers: seq<bool>, hasDotsContainer: bool, hasPrev: bool, hasNext: bool, firstId: Autoplay.TimerId): (r: Slider)
    ensures |r.slides| == |markers|
    ensures r.hasPrev == hasPrev && r.hasNext == hasNext
    ensures |r.dots| == if hasDotsContainer then |markers| else 0
    ensures Valid(r)
    ensures |markers| > 0 ==> r.current == Int(0) && r.slides[0] && |r.timer.live| == 1
    ensures |markers| == 0 ==> r.timer.live == {} && r.timer.handle.None?
  {
    var dots := CreateDots(hasDotsContainer, |markers|);
    var s := Slider(markers, dots, seq(|dots|, _ => false), Int(0), Autoplay.Idle(firstId), hasPrev, hasNext);
    if |markers| > 0 then
      var s' := Show(s, Int(0));
      s'.(timer := Autoplay.Start(s'.timer))
    else s
  }

  /** The slider's invariant: one dot per slide (or none), each dot targets its own
      position, the timer is valid, and for a non-empty slider `current` is in range
      and exactly the slide and dot at `current` carry the marker. */
  predicate Valid(s: Slider) {
    && |s.dotActive| == |s.dots|
    && (|s.dots| == 0 || |s.dots| == |s.slides|)
    && (forall k :: 0 <= k < |s.dots| ==> s.dots[k] == k)
    && Autoplay.Valid(s.timer)
    && (|s.slides| > 0 ==>
          && s.current.InRange(|s.slides|)
          && s.slides == OnlyAt(|s.slides|, s.current)
          && s.dotActive == OnlyAt(|s.dots|, s.current))
  }

  /** Showing a valid index of a valid slider keeps it valid. */
  lemma ShowKeepsValid(s: Slider, idx: Num)
    requires Valid(s) && idx.InRange(|s.slides|)
    ensures Valid(Show(s, idx))
  {
  }

  /** Every event keeps a valid slider valid. */
  lemma HandleKeepsValid(s: Slider, e: Event)
    requires Valid(s)
    ensures Valid(Handle(s, e))
  {
    if |s.slides| > 0 {
      match e
      case NextClick => ShowKeepsValid(s, Succ(s.current, |s.slides|));
      case PrevClick => ShowKeepsValid(s, Pred(s.current, |s.slides|));
      case DotClick(k) => if k < |s.dots| { ShowKeepsValid(s, Int(s.dots[k])); }
      case Tick(id) => ShowKeepsValid(s, Succ(s.current, |s.slides|));
      case MouseEnter =>
      case MouseLeave =>
    }
  }

  /** Any sequence of events keeps the slider valid. */
  lemma {:induction false} RunKeepsValid(s: Slider, es: seq<Event>)
    requires Valid(s)
    ensures Valid(RunEvents(s, es))
    decreases |es|
  {
    if |es| > 0 {
      HandleKeepsValid(s, es[0]);
      RunKeepsValid(Handle(s, es[0]), es[1..]);
    }
  }

  /** In a valid non-empty slider exactly one slide and at most one dot are active,
      and next and prev stay in range, wrapping at both ends. */
  lemma {:induction false} ValidMarkers(s: Slider)
    requires Valid(s) && |s.slides| > 0
    ensures CountTrue(s.slides) == 1 && s.slides[s.current.v]
    ensures CountTrue(s.dotActive) <= 1
    ensures Next(s).current.InRange(|s.slides|) && Prev(s).current.InRange(|s.slides|)
    ensures s.current.v == |s.slides| - 1 ==> Next(s).current == Int(0)
    ensures s.current.v == 0 ==> Prev(s).current == Int(|s.slides| - 1)
  {
    CountOnlyAt(|s.slides|, s.current);
    CountOnlyAt(|s.dots|, s.current);
  }

  /** With no slides, init starts nothing and next or prev turn `current` into NaN
      without marking anything; leaving the slider still starts an interval. */
  lemma EmptySlider(hasDots: bool, hasPrev: bool, firstId: Autoplay.TimerId)
    ensures
      var s := Init([], hasDots, hasPrev, true, firstId);
      && s.timer.live == {}
      && Handle(s, NextClick).current == NaN
      && Handle(s, NextClick).slides == [] && Handle(s, NextClick).timer.live == {}
      && |Handle(s, MouseLeave).timer.live| == 1
  {
  }

  /** A click on dot k makes slide k, and dot k, the only active ones, and leaves autoplay alone. */
  lemma DotClickShowsSlide(s: Slider, k: nat)
    requires Valid(s) && k < |s.dots|
    ensures Handle(s, DotClick(k)).current == Int(k)
    ensures forall j :: 0 <= j < |s.slides| ==> (Handle(s, DotClick(k)).slides[j] <==> j == k)
    ensures forall j :: 0 <= j < |s.dots| ==> (Handle(s, DotClick(k)).dotActive[j] <==> j == k)
    ensures Handle(s, DotClick(k)).timer == s.timer
  {
  }

  /** Hovering stops autoplay but keeps the handle, so a manual next or prev
      afterwards restarts it; leaving the slider always restarts it. */
  lemma HoverThenManualRestarts(s: Slider)
    requires Valid(s) && s.timer.handle.Some?
    ensures Handle(s, MouseEnter).timer.live == {}
    ensures s.hasNext ==> |Handle(Handle(s, MouseEnter), NextClick).timer.live| == 1
    ensures s.hasPrev ==> |Handle(Handle(s, MouseEnter), PrevClick).timer.live| == 1
    ensures |Handle(Handle(s, MouseEnter), MouseLeave).timer.live| == 1
  {
  }

  /** A manual next or prev replaces the scheduled interval by a fresh one: the
      interval that was live before no longer fires. */
  lemma ManualStepReschedules(s: Slider, id: Autoplay.TimerId)
    requires Valid(s) && id in s.timer.live
    ensures s.hasNext ==>
      && id !in Handle(s, NextClick).timer.live
      && |Handle(s, NextClick).timer.live| == 1
      && Handle(Handle(s, NextClick), Tick(id)) == Handle(s, NextClick)
    ensures s.hasPrev ==>
      && id !in Handle(s, PrevClick).timer.live
      && |Handle(s, PrevClick).timer.live| == 1
      && Handle(Handle(s, PrevClick), Tick(id)) == Handle(s, PrevClick)
  {
  }

  /** The markers of a three-element group with one active position, written out. */
  lemma OnlyAtThree()
    ensures OnlyAt(3, Int(0)) == [true, false, false]
    ensures OnlyAt(3, Int(1)) == [false, true, false]
    ensures OnlyAt(3, Int(2)) == [false, false, true]
  {
  }

  /** Start-up of three slides with dots and both controls: slide 0 and dot 0 active,
      and interval `firstId` recorded and live. */
  lemma InitThreeSlides(firstId: Autoplay.TimerId)
    ensures Init([false, false, false], true, true, true, firstId)
         == Slider([true, false, false], [0, 1, 2], [true, false, false], Int(0),
                   Autoplay.Timer(Some(firstId), {firstId}, firstId + 1), true, true)
  {
    OnlyAtThree();
  }

  /** Three slides: slide 0 after init, slide 1 after the interval fires, slide 2 after a
      manual next, which also cancels the original interval and schedules a new one. */
  lemma ThreeSlideScenario(firstId: Autoplay.TimerId)
    ensures
      var s0 := Init([false, false, false], true, true, true, firstId);
      var s1 := Handle(s0, Tick(firstId));
      var s2 := Handle(s1, NextClick);
      && s0.current == Int(0) && s0.slides == [true, false, false]
      && s1.current == Int(1) && s1.slides == [false, true, false]
      && s2.current == Int(2) && s2.slides == [false, false, true]
      && s2.dotActive == [false, false, true]
      && s2.timer.live == {firstId + 1}
      && Handle(s2, Tick(firstId)) == s2
  {
    InitThreeSlides(firstId);
    OnlyAtThree();
  }
}

=== FILE: tabs.dfy ===
/**
 Tabbed content: a group of panes, each with an element id, and a group of tab
 buttons. Activating a tab clears every pane and button marker, then marks the
 pane the name refers to (if any) and the clicked control.

 The clicked control is an explicit parameter: the index of the tab button that
 received the click. An index outside the button group stands for a click
 target that is not one of the tab buttons, whose marker is not tracked here.
 */
module Tabs {
  import opened JsValues
  import opened Markers

  datatype Pane = Pane(id: string, active: bool)

  datatype Tabs = Tabs(panes: seq<Pane>, buttons: seq<bool>)

  /** `getElementById(name)` restricted to the panes: the first pane, in document
      order, whose id is `name`. */
  function FindPane(panes: seq<Pane>, name: string): (r: Option<nat>)
    ensures r.None? <==> forall j :: 0 <= j < |panes| ==> panes[j].id != name
    ensures r.Some? ==> r.value < |panes| && panes[r.value].id == name
    ensures r.Some? ==> forall j :: 0 <= j < r.value ==> panes[j].id != name
  {
    if |panes| == 0 then None
    else if panes[0].id == name then Some(0)
    else match FindPane(panes[1..], name)
      case None => None
      case Some(k) => Some(k + 1)
  }

  /** The panes' markers as a sequence of booleans. */
  function PaneMarkers(panes: seq<Pane>): (r: seq<bool>)
    ensures |r| == |panes|
    ensures forall j :: 0 <= j < |panes| ==> r[j] == panes[j].active
  {
    seq(|panes|, j requires 0 <= j < |panes| => panes[j].active)
  }

  /** `showTab(name)` triggered by a click on button `clicked`. */
  function ShowTab(t: Tabs, name: string, clicked: int): (r: Tabs)
    ensures |r.panes| == |t.panes| && |r.buttons| == |t.buttons|
    ensures forall j :: 0 <= j < |t.panes| ==> r.panes[j].id == t.panes[j].id
    ensures forall j :: 0 <= j < |t.panes| ==> (r.panes[j].active <==> FindPane(t.panes, name) == Some(j))
    ensures forall j :: 0 <= j < |t.buttons| ==> (r.buttons[j] <==> j == clicked)
  {
    var target := FindPane(t.panes, name);
    var panes := seq(|t.panes|, j requires 0 <= j < |t.panes| => Pane(t.panes[j].id, target == Some(j)));
    Tabs(panes, OnlyAt(|t.buttons|, Int(clicked)))
  }

  /** After activation exactly one pane is active when some pane has the name (the
      first such pane) and none otherwise; exactly one button is active when the
      click came from a tab button. */
  lemma {:induction false} ShowTabSingleActive(t: Tabs, name: string, clicked: int)
    ensures CountTrue(PaneMarkers(ShowTab(t, name, clicked).panes)) ==
      if exists j :: 0 <= j < |t.panes| && t.panes[j].id == name then 1 else 0
    ensures CountTrue(ShowTab(t, name, clicked).buttons) == if 0 <= clicked < |t.buttons| then 1 else 0
  {
    var r := ShowTab(t, name, clicked);
    var target := FindPane(t.panes, name);
    CountOnlyAt(|t.buttons|, Int(clicked));
    match target
    case None =>
      assert PaneMarkers(r.panes) == OnlyAt(|t.panes|, NaN);
      CountOnlyAt(|t.panes|, NaN);
    case Some(k) =>
      assert PaneMarkers(r.panes) == OnlyAt(|t.panes|, Int(k));
      CountOnlyAt(|t.panes|, Int(k));
  }

  /** The result depends only on the ids, the name and the clicked control, never on
      which markers were set before; hence activating the same tab twice is the same
      as activating it once. */
  lemma ShowTabIdempotent(t: Tabs, u: Tabs, name: string, clicked: int)
    requires |t.panes| == |u.panes| && |t.buttons| == |u.buttons|
    requires forall j :: 0 <= j < |t.panes| ==> t.panes[j].id == u.panes[j].id
    ensures ShowTab(t, name, clicked) == ShowTab(u, name, clicked)
    ensures ShowTab(ShowTab(t, name, clicked), name, clicked) == ShowTab(t, name, clicked)
  {
    var r := ShowTab(t, name, clicked);
    assert FindPane(r.panes, name) == FindPane(t.panes, name) by {
      IdsDetermineFind(t.panes, r.panes, name);
    }
  }

  /** Which pane a name finds depends only on the panes' ids. */
  lemma {:induction false} IdsDetermineFind(a: seq<Pane>, b: seq<Pane>, name: string)
    requires |a| == |b|
    requires forall j :: 0 <= j < |a| ==> a[j].id == b[j].id
    ensures FindPane(a, name) == FindPane(b, name)
  {
    if |a| > 0 {
      IdsDetermineFind(a[1..], b[1..], name);
    }
  }
}
